=== FILE: README.md ===
# GHGA metadata generators: reference-slot relaxation

This project models the two pieces of decision logic that `ghga_metadata_utils`
adds on top of the LinkML generators, and proves what they promise.

* **Pydantic generator** (`ghga_metadata_utils/generators/pydanticgen.py`).
  At construction it collects the *reference slots*: the underscored aliases
  of slots whose alias starts with `"has "` or is `"main contact"`, minus
  `"has attribute"`, `"has parameter"` and `"has data use condition"`. Its
  serialisation pass walks the classes (except `linkml:Any` ones) and their
  induced slots and annotates every slot with a Python type expression:
  `schema_type` becomes `Literal["<Class>"]`; a class range becomes `Any`,
  `str` (a reference by identifier), the single descendant's name, or a
  discriminated union over all descendants, which is registered in
  `annotated_unions` only if its name is new; then enums, types and absent
  ranges; any other range raises. The expression is wrapped in `List[...]`
  when multivalued, widened to `Union[..., str]` / `Union[..., List[str]]`
  for reference slots, and wrapped in `Optional[...]` when not required.
  Modules `PydanticRanges` (the per-slot decision, a pure function),
  `PydanticRangeProperties` (its properties) and `PydanticGenerator` (the
  generator object, its pass as a method proved against a left-fold
  specification, and the registry lemmas).
* **JSON-Schema generator** (`ghga_metadata_utils/generators/jsonschemagen.py`).
  It collects the same reference slots (raw aliases). For a reference slot,
  `visit_class_slot` rewrites the generated property in place so that it also
  admits a string: a `$ref` becomes `oneOf [ref, string]` (inside `items`,
  `oneOf [string, ref]` for arrays), an existing `oneOf` list gets a string
  alternative appended. The property is then copied to the schema's top-level
  properties for the top class (or the tree root when no top class is set).
  Module `JsonSchemaGenerator`: JSON values as a datatype, property objects as
  a class updated in place, the generator as a class.

Shared modules: `OrderedDicts` (Python's insertion-ordered dictionaries:
assignment replaces a present key where it stands, appends an absent one),
`ReferenceSlots` (the alias test), `Strings` (`startswith`, substring test),
`Wrappers` (`Option`, and `Result` whose failure is an exception's message).

The schema runtime's `camelcase` and `underscore` are uninterpreted: they are
parameters of the model. So are the schema view's answers (`all_classes`,
`all_enums`, `all_types`, `get_identifier_slot`, `class_descendants`,
`_get_pyrange`), given as the `SchemaView` value, and `aliased_slot_name`,
given as the list of slot aliases.

Behaviour of the code as written, which the model keeps:

* the collection key of a multivalued slot is never set (pydanticgen.py:232
  assigns a different variable), so multivalued slots are always `List[...]`
  and the `Dict[...]` wrapping is unreachable (`MultivaluedIsList`,
  `InlinedAsListIrrelevant`);
* union members are camel-cased twice (pydanticgen.py:209 and 221);
* the reference-slot set holds underscored *aliases*, but it is queried with
  the underscored slot *name* (pydanticgen.py:149 and 251).

## Model

| member | source | states |
|---|---|---|
| `ReferenceSlots.ExcludedNamesDoNotQualify` | ghga_metadata_utils/generators/pydanticgen.py:36 | each of the three excluded names starts with "has " yet is not a reference slot |
| `ReferenceSlots.HasAliasQualifies` | ghga_metadata_utils/generators/pydanticgen.py:144-149 | every other alias "has <x>" is a reference slot |
| `ReferenceSlots.IsReferenceAlias` | ghga_metadata_utils/generators/pydanticgen.py:146-148 | the test both generators apply (also jsonschemagen.py:57-59): "main contact" always passes, and no excluded name passes |
| `ReferenceSlots.RawReferenceSlots` | ghga_metadata_utils/generators/jsonschemagen.py:54-60 | the qualifying aliases of a schema: only aliases of its slots, "main contact" exactly when the schema has it, never an excluded name |
| `PydanticGenerator.ReferenceSlotNames` | ghga_metadata_utils/generators/pydanticgen.py:142-149 | the underscored form of every qualifying alias is a reference slot name |
| `PydanticGenerator.ReferenceSlotNamesUnderscored` | ghga_metadata_utils/generators/pydanticgen.py:142-149 | the Pydantic generator's set is the JSON-Schema generator's set with `underscore` applied to each member |
| `PydanticGenerator.ReferenceSlotMembership` | ghga_metadata_utils/generators/pydanticgen.py:142-149 | a name is a reference slot iff it is the underscored form of some alias that passes the reference test |
| `PydanticGenerator.Generator.constructor` | ghga_metadata_utils/generators/pydanticgen.py:142-149 | the loop leaves exactly the underscored qualifying aliases in `referenceSlots`, and an empty union registry |
| `Strings.ContainsAt` | ghga_metadata_utils/generators/pydanticgen.py:252 | the substring test used by the relaxation holds iff the text occurs at some position |
| `PydanticRanges.CamelAll` | ghga_metadata_utils/generators/pydanticgen.py:220-222 | every name is camel-cased, in order, none lost |
| `PydanticRanges.ClassRange` | ghga_metadata_utils/generators/pydanticgen.py:201-234 | a union is requested exactly for a non-Any class range that is inlined or has no identifier and has two or more descendants; the type is then the union's name, its discriminator is `schema_type` and it has one member per descendant |
| `PydanticRanges.BaseRange` | ghga_metadata_utils/generators/pydanticgen.py:198-243 | resolution raises exactly for a slot other than `schema_type` whose present range is no class, enum or type, with the message "range: <range>"; only a class range requests a union |
| `PydanticRanges.Container` | ghga_metadata_utils/generators/pydanticgen.py:244-248 | a single-valued type is kept; a multivalued one becomes a longer string ending in `]`, and without a collection key it is `List[` followed by the element type itself and `]` |
| `PydanticRanges.Relaxed` | ghga_metadata_utils/generators/pydanticgen.py:250-256 | a slot that is no reference slot, or a `str` type, is kept; a widened type is a `Union` whose first alternative is the original type |
| `PydanticRanges.Optionalized` | ghga_metadata_utils/generators/pydanticgen.py:258-259 | a required slot and the `schema_type` slot keep their type; any other slot's type always changes, into one starting `Optional[<type>` and ending in `]` (`OptionalWrapsRequired` gives the exact form) |
| `PydanticRanges.SlotType` | ghga_metadata_utils/generators/pydanticgen.py:197-259 | a slot's annotation raises exactly when its base resolution does, with the same message; the requested union is the base resolution's; a required, single-valued, non-reference slot keeps its base type |
| `PydanticRanges.Reversed` | ghga_metadata_utils/generators/pydanticgen.py:208 | the descendants are taken last to first, none lost |
| `PydanticRangeProperties.SchemaTypeIsLiteral` | ghga_metadata_utils/generators/pydanticgen.py:198-200 | a single-valued `schema_type` slot is `Literal["<camel-cased class name>"]` and asks for no union |
| `PydanticRangeProperties.SchemaTypeIgnoresRangeAndRequired` | ghga_metadata_utils/generators/pydanticgen.py:198-259 | the range and the required flag of `schema_type` never change its type: it is checked before any range and never made Optional |
| `PydanticRangeProperties.UnresolvableRange` | ghga_metadata_utils/generators/pydanticgen.py:201-243 | resolution raises exactly for a present range that is no class, enum or type, with the message "range: <range>" |
| `PydanticRangeProperties.ClassBeforeEnumAndType` | ghga_metadata_utils/generators/pydanticgen.py:201-239 | a class range resolves the same whether or not an enum or type has that name too |
| `PydanticRangeProperties.EnumBeforeType` | ghga_metadata_utils/generators/pydanticgen.py:235-239 | an enum range resolves the same whether or not a type has that name too |
| `PydanticRangeProperties.EnumRange` | ghga_metadata_utils/generators/pydanticgen.py:235-236 | an enum range is the camel-cased enum name |
| `PydanticRangeProperties.TypeRange` | ghga_metadata_utils/generators/pydanticgen.py:237-239 | a type range is the Python type the type maps to |
| `PydanticRangeProperties.AbsentRange` | ghga_metadata_utils/generators/pydanticgen.py:240-241 | a slot without range is `str` |
| `PydanticRangeProperties.AnyClassRange` | ghga_metadata_utils/generators/pydanticgen.py:202-204 | a class with URI `linkml:Any` is `Any` |
| `PydanticRangeProperties.IdentifiedClassByReference` | ghga_metadata_utils/generators/pydanticgen.py:205-234 | a class with an identifier on a slot that is not inlined is `str` |
| `PydanticRangeProperties.SingleDescendant` | ghga_metadata_utils/generators/pydanticgen.py:205-210 | an embedded class with one descendant is that descendant's camel-cased name, with no union |
| `PydanticRangeProperties.DescendantUnion` | ghga_metadata_utils/generators/pydanticgen.py:205-227 | with two or more descendants the type is `camelcase("annotated " + first descendant)` and the requested union has that name, discriminator `schema_type`, and the descendants reversed |
| `PydanticRangeProperties.UnionOnlyForSeveralDescendants` | ghga_metadata_utils/generators/pydanticgen.py:201-227 | a union is requested only by an embedded, non-Any class range with at least two descendants |
| `PydanticRangeProperties.InlinedAsListIrrelevant` | ghga_metadata_utils/generators/pydanticgen.py:228-232 | `inlined_as_list` never changes a slot's type |
| `PydanticRangeProperties.MultivaluedIsList` | ghga_metadata_utils/generators/pydanticgen.py:244-248 | a multivalued slot's type is the single-valued type in `List[...]`, never `Dict[...]` |
| `PydanticRangeProperties.OptionalWrapsRequired` | ghga_metadata_utils/generators/pydanticgen.py:258-259 | an optional slot other than `schema_type` is the required slot's type in `Optional[...]`, nothing else differs |
| `PydanticRangeProperties.ReferenceRelaxation` | ghga_metadata_utils/generators/pydanticgen.py:250-256 | making a slot a reference slot widens its type to `Union[T, str]` (`Union[T, List[str]]` when multivalued) unless T is `str` or mentions `[str]`, and changes nothing else |
| `PydanticGenerator.EscapedRoundTrip` | ghga_metadata_utils/generators/pydanticgen.py:186-195 | escaping double quotes in descriptions loses nothing: the text reads back |
| `PydanticGenerator.Escaped` | ghga_metadata_utils/generators/pydanticgen.py:187 | escaping never shortens a description (see `EscapedRoundTrip` for what it preserves) |
| `PydanticGenerator.EscapedText` | ghga_metadata_utils/generators/pydanticgen.py:186-187 | a present description becomes its escaped text; an absent one stays absent |
| `PydanticGenerator.ClassHeader` | ghga_metadata_utils/generators/pydanticgen.py:180-190 | the generated class is named by the camel-cased class name, its mixins are camel-cased in order, a non-empty parent is camel-cased (otherwise kept), its description is escaped, and it starts with no attributes |
| `PydanticGenerator.PreparedSlot` | ghga_metadata_utils/generators/pydanticgen.py:192-195 | the slot is renamed with `underscore` and its description escaped; every other field is unchanged |
| `PydanticGenerator.Register` | ghga_metadata_utils/generators/pydanticgen.py:215-226 | the registered names keep their order and at most one name is added, at the end |
| `PydanticGenerator.SlotStep` | ghga_metadata_utils/generators/pydanticgen.py:191-261 | one slot keeps the class name and every attribute already present; unless it raised, the attribute under the slot's underscored name is the prepared slot annotated with the type `SlotType` resolves for it; a raising slot changes neither the class nor the registry |
| `PydanticGenerator.SlotsPass` | ghga_metadata_utils/generators/pydanticgen.py:191-261 | the slots of a class keep its name and the attributes it started with |
| `PydanticGenerator.ClassesPass` | ghga_metadata_utils/generators/pydanticgen.py:178-261 | the pass generates at most one class per input class |
| `PydanticGenerator.SlotsPassAnnotatesEverySlot` | ghga_metadata_utils/generators/pydanticgen.py:191-196 | when no slot raises, every slot of the class is an attribute under its underscored name (`SlotsPassAnnotated` gives the annotation each carries) |
| `PydanticGenerator.SlotsPassAnnotated` | ghga_metadata_utils/generators/pydanticgen.py:191-261 | across the slots of a class, every attribute stays stored under its slot's name and annotated with exactly the type expression `SlotType` resolves for that slot in that class |
| `PydanticGenerator.ClassesPassAnnotated` | ghga_metadata_utils/generators/pydanticgen.py:178-261 | every class the pass generates, under its name, has every attribute annotated with its slot's resolved type |
| `PydanticGenerator.ClassesPassGeneratesEveryClass` | ghga_metadata_utils/generators/pydanticgen.py:178-188 | when no slot raises, every class handed to the pass is generated under its camel-cased name |
| `PydanticGenerator.Generated` | ghga_metadata_utils/generators/pydanticgen.py:177 | exactly the classes whose URI is not `linkml:Any` are generated |
| `PydanticGenerator.RegisterNeverOverwrites` | ghga_metadata_utils/generators/pydanticgen.py:215-226 | registering keeps every existing entry, adds a union only under a new name, and afterwards the name is present |
| `PydanticGenerator.ClassesPassKeepsEntries` | ghga_metadata_utils/generators/pydanticgen.py:178-227 | a whole pass never overwrites a union registered before it |
| `PydanticGenerator.ClassesPassKeepsEarlierEntries` | ghga_metadata_utils/generators/pydanticgen.py:178-227 | a union registered while processing the first classes keeps its entry, unchanged, to the end of the pass |
| `PydanticGenerator.ClassesPassIgnoresRegistry` | ghga_metadata_utils/generators/pydanticgen.py:178-261 | the generated classes and the outcome do not depend on the registry's prior content |
| `PydanticGenerator.SerializeIdempotent` | ghga_metadata_utils/generators/pydanticgen.py:176-261 | running the pass again on the registry it left gives the same classes, outcome and registry |
| `PydanticGenerator.Generator.AnnotateSlots` | ghga_metadata_utils/generators/pydanticgen.py:191-261 | the slot loop of one class leaves the annotated class and registry the fold over its slots gives, stopping at the first raise |
| `PydanticGenerator.Generator.Serialize` | ghga_metadata_utils/generators/pydanticgen.py:173-261 | a schema without a description raises AttributeError before any class, leaving the registry as it was; otherwise the pass returns the generated classes (or the exception) and leaves the registry exactly as the fold over classes and slots gives |
| `OrderedDicts.Lookup` | ghga_metadata_utils/generators/jsonschemagen.py:89 | a key is found iff it is among the keys |
| `OrderedDicts.Put` | ghga_metadata_utils/generators/jsonschemagen.py:93 | assignment sets the key, leaves other keys, and keeps the key order (appending a new key) |
| `OrderedDicts.Remove` | ghga_metadata_utils/generators/jsonschemagen.py:92 | `del` removes the key, leaves the other keys' values, and keeps the remaining keys in their order |
| `JsonSchemaGenerator.Generator.constructor` | ghga_metadata_utils/generators/jsonschemagen.py:54-60 | the loop leaves exactly `RawReferenceSlots` of the aliases in `referenceSlots` |
| `JsonSchemaGenerator.SinglevaluedFixed` | ghga_metadata_utils/generators/jsonschemagen.py:84-96 | the single-valued rewrite raises exactly when there is no `$ref` and `oneOf` is not a list; otherwise it changes no key but `$ref` and `oneOf` |
| `JsonSchemaGenerator.MultivaluedFixed` | ghga_metadata_utils/generators/jsonschemagen.py:98-112 | the multivalued rewrite raises when `items` is missing; when it succeeds the property keeps its keys in order and changes nothing but `items` |
| `JsonSchemaGenerator.ItemsFixed` | ghga_metadata_utils/generators/jsonschemagen.py:103-112 | the rewrite of an `items` object raises exactly when it has no `$ref` and a `oneOf` that is not a list; otherwise only `items` changes and the keys keep their order |
| `JsonSchemaGenerator.Rewritten` | ghga_metadata_utils/generators/jsonschemagen.py:70-77 | a successful rewrite changes no key but `items`, `$ref` and `oneOf`; in particular `type` is kept |
| `JsonSchemaGenerator.Promoted` | ghga_metadata_utils/generators/jsonschemagen.py:79-81 | the top class's slots are promoted; without a top class, exactly the tree root's are |
| `JsonSchemaGenerator.SinglevaluedRef` | ghga_metadata_utils/generators/jsonschemagen.py:89-93 | `$ref` is removed and `oneOf` is `[{"$ref": old}, {"type": "string"}]`; other keys unchanged |
| `JsonSchemaGenerator.SinglevaluedOneOf` | ghga_metadata_utils/generators/jsonschemagen.py:94-96 | one string alternative is appended after the existing `oneOf` entries; keys and other values unchanged |
| `JsonSchemaGenerator.SinglevaluedUntouched` | ghga_metadata_utils/generators/jsonschemagen.py:89-96 | a property with neither `$ref` nor `oneOf` is left as it is |
| `JsonSchemaGenerator.MultivaluedRef` | ghga_metadata_utils/generators/jsonschemagen.py:103-109 | `items.$ref` is removed and `items.oneOf` is `[{"type": "string"}, {"$ref": old}]`; keys outside `items` untouched |
| `JsonSchemaGenerator.MultivaluedOneOf` | ghga_metadata_utils/generators/jsonschemagen.py:110-112 | a string alternative is appended to `items.oneOf`; keys outside `items` untouched |
| `JsonSchemaGenerator.MultivaluedWithoutItemsRaises` | ghga_metadata_utils/generators/jsonschemagen.py:103 | a property without `items` raises |
| `JsonSchemaGenerator.SinglevaluedWidensByString` | ghga_metadata_utils/generators/jsonschemagen.py:84-96 | a property's alternatives become the old ones followed by the string schema |
| `JsonSchemaGenerator.MultivaluedWidensByString` | ghga_metadata_utils/generators/jsonschemagen.py:98-112 | the alternatives of `items` gain exactly the string schema, none lost |
| `JsonSchemaGenerator.ItemsRefWidens` | ghga_metadata_utils/generators/jsonschemagen.py:104-109 | replacing `items.$ref` turns one alternative into that one plus the string schema |
| `JsonSchemaGenerator.ItemsOneOfWidens` | ghga_metadata_utils/generators/jsonschemagen.py:110-112 | appending to `items.oneOf` adds the string schema after the existing alternatives |
| `JsonSchemaGenerator.RewriteDispatch` | ghga_metadata_utils/generators/jsonschemagen.py:70-77 | only reference slots are rewritten; `type == "array"` takes the multivalued fix, anything else (no `type` included) the single-valued one |
| `JsonSchemaGenerator.Generator.FixSinglevaluedSlot` | ghga_metadata_utils/generators/jsonschemagen.py:84-96 | the property object is rewritten in place as the single-valued rewrite gives, or left unchanged when it raises |
| `JsonSchemaGenerator.Generator.FixMultivaluedSlot` | ghga_metadata_utils/generators/jsonschemagen.py:98-112 | the property object is rewritten in place as the multivalued rewrite gives, or left unchanged when it raises |
| `JsonSchemaGenerator.Generator.FixItems` | ghga_metadata_utils/generators/jsonschemagen.py:104-112 | the rewrite of an `items` object, in place in the property |
| `JsonSchemaGenerator.Generator.VisitClassSlot` | ghga_metadata_utils/generators/jsonschemagen.py:62-82 | the slot's property is rewritten as the dispatch gives and, unless that raised, the same object is stored in the schema's properties iff the class is the top class (or the tree root when no top class is set) |

## Left out

- The command-line entry points of both generators (argument wiring, printing to standard output).
- Template rendering with Jinja2, the default template text and reading a template file; the generated source text is not modelled, only the annotated classes and the union registry handed to the template.
- The schema-level `SchemaDefinition` (its id, its name and the escaped text of its description) and `generate_enums`: framework calls whose results only feed the template. Only whether the schema has a description is modelled: pydanticgen.py:173 escapes it without a check, so a schema without one raises AttributeError before any class is visited (`Serialize` returns that failure).
- The LinkML framework queries (`SchemaView`, `sort_classes`, `induced_slot`, `class_descendants`, `get_identifier_slot`, `_get_pyrange`, `aliased_slot_name`): their answers are inputs. The classes are given already sorted, each with its induced slots.
- `camelcase` and `underscore`: uninterpreted function parameters, since their definitions are not part of this model.
- `super().visit_class_slot` and the base generator's per-class object: represented by the property it stores under the underscored alias; the model tracks the current class object's properties only.
- Slot fields copied unchanged into the attributes (title, minimum and maximum values) and Python's `deepcopy`.
- On an exception the Python pass discards the classes it built; the model returns only the exception's message and the registry as it stands.
- JSON numbers are integers in the model; nested JSON values are values: the `items` object and the `oneOf` list are updated in place in the source (jsonschemagen.py:95-96, 107-112), and an object or list shared with another property would change there too. The model rewrites the property's own copy, so such sharing is not captured.
- `ghga_metadata_utils/validation_plugins/jsonschema_validation.py` and `my_microservice/config.py`: plugin registration and configuration plumbing with no logic of their own.
- PydanticGenerator.Generated: its contract states which classes are kept, not that their order is kept; the order follows from its definition.

=== FILE: json_schema_generator.dfy ===
/**
 * The JSON-Schema generator's relaxation of reference slots: the property
 * generated for a reference slot is rewritten in place so that it also
 * accepts a plain string identifier, and the properties of the top class
 * are copied to the schema's top level.
 */
module JsonSchemaGenerator {
  import opened Wrappers
  import opened Strings
  import opened OrderedDicts
  import opened ReferenceSlots

  /** A JSON value; objects keep their keys in insertion order. */
  datatype Json =
    | JNull
    | JBool(b: bool)
    | JNum(n: int)
    | JStr(s: string)
    | JArr(elems: seq<Json>)
    | JObj(fields: Dict<Json>)

  /**
   * The type name a message gives for a JSON value. A nested object is
   * named `dict`, although in the property it may be a `JsonObj` instead.
   */
  function PyTypeName(j: Json): string {
    match j
    case JNull => "NoneType"
    case JBool(_) => "bool"
    case JNum(_) => "int"
    case JStr(_) => "str"
    case JArr(_) => "list"
    case JObj(_) => "dict"
  }

  /** The message of `x.append(...)` on a value `x` that is not a list. */
  function NoAppend(x: Json): string {
    "AttributeError: '" + PyTypeName(x) + "' object has no attribute 'append'"
  }

  /** `{"type": "string"}` */
  const StringSchema: Json := JObj([Entry("type", JStr("string"))])

  /** `{"$ref": target}` */
  function RefSchema(target: Json): Json {
    JObj([Entry("$ref", target)])
  }

  /** The alternatives a property schema offers: its `$ref`, else the entries of its `oneOf` list. */
  function Alternatives(fields: Dict<Json>): seq<Json> {
    match Lookup<Json>(fields, "$ref")
    case Some(target) => [RefSchema(target)]
    case None =>
      match Lookup<Json>(fields, "oneOf")
      case Some(JArr(xs)) => xs
      case _ => []
  }

  /**
   * `fix_singlevalued_slot`: a `$ref` becomes `oneOf [ref, string]`; an
   * existing `oneOf` list gets a string alternative appended; a property
   * with neither is left as it is. Appending to a `oneOf` that is not a list
   * raises.
   */
  function SinglevaluedFixed(prop: Dict<Json>): (r: Result<Dict<Json>>)
    ensures r.Failure? <==> Lookup(prop, "$ref").None? && Lookup(prop, "oneOf").Some? && !Lookup(prop, "oneOf").value.JArr?
    ensures r.Success? ==> forall k :: k != "$ref" && k != "oneOf" ==> Lookup(r.value, k) == Lookup(prop, k)
  {
    match Lookup<Json>(prop, "$ref")
    case Some(target) => Success(Put(Remove(prop, "$ref"), "oneOf", JArr([RefSchema(target), StringSchema])))
    case None =>
      match Lookup<Json>(prop, "oneOf")
      case Some(JArr(xs)) => Success(Put(prop, "oneOf", JArr(xs + [StringSchema])))
      case Some(other) => Failure(NoAppend(other))
      case None => Success(prop)
  }

  /**
   * `fix_multivalued_slot`: the same rewrite inside `items`, with the string
   * alternative first when a `$ref` is replaced. A missing `items` raises;
   * `in` on an `items` list or string tests membership or substrings, and
   * indexing one with a key raises.
   */
  function MultivaluedFixed(prop: Dict<Json>): (r: Result<Dict<Json>>)
    ensures Lookup(prop, "items").None? ==> r.Failure?
    ensures r.Success? ==> Keys(r.value) == Keys(prop)
    ensures r.Success? ==> forall k :: k != "items" ==> Lookup(r.value, k) == Lookup(prop, k)
  {
    match Lookup<Json>(prop, "items")
    case None => Failure("KeyError: 'items'")
    case Some(JObj(items)) => ItemsFixed(prop, items)
    case Some(JArr(xs)) =>
      if JStr("$ref") in xs || JStr("oneOf") in xs then Failure("TypeError: list indices must be integers or slices, not str")
      else Success(prop)
    case Some(JStr(t)) =>
      if Contains(t, "$ref") || Contains(t, "oneOf") then Failure("TypeError: string indices must be integers")
      else Success(prop)
    case Some(other) => Failure("TypeError: argument of type '" + PyTypeName(other) + "' is not iterable")
  }

  /** The multivalued rewrite when `items` is the object `items`. */
  function ItemsFixed(prop: Dict<Json>, items: Dict<Json>): (r: Result<Dict<Json>>)
    ensures r.Failure? <==> Lookup(items, "$ref").None? && Lookup(items, "oneOf").Some? && !Lookup(items, "oneOf").value.JArr?
    ensures "items" in Keys(prop) && r.Success? ==> Keys(r.value) == Keys(prop)
    ensures r.Success? ==> forall k :: k != "items" ==> Lookup(r.value, k) == Lookup(prop, k)
  {
    match Lookup<Json>(items, "$ref")
    case Some(target) =>
      Success(Put(prop, "items", JObj(Put(Remove(items, "$ref"), "oneOf", JArr([StringSchema, RefSchema(target)])))))
    case None =>
      match Lookup<Json>(items, "oneOf")
      case Some(JArr(xs)) => Success(Put(prop, "items", JObj(Put(items, "oneOf", JArr(xs + [StringSchema])))))
      case Some(other) => Failure(NoAppend(other))
      case None => Success(prop)
  }

  /** A property whose `type` is `"array"`. */
  predicate IsArrayProperty(prop: Dict<Json>) {
    Lookup(prop, "type") == Some(JStr("array"))
  }

  /** The rewrite `visit_class_slot` applies to the property of the slot with alias `alias`. */
  function Rewritten(references: set<string>, alias: string, prop: Dict<Json>): (r: Result<Dict<Json>>)
    ensures r.Success? ==> forall k :: k !in {"items", "$ref", "oneOf"} ==> Lookup(r.value, k) == Lookup(prop, k)
    ensures r.Success? ==> Lookup(r.value, "type") == Lookup(prop, "type")
  {
    if alias !in references then Success(prop)
    else if IsArrayProperty(prop) then MultivaluedFixed(prop)
    else SinglevaluedFixed(prop)
  }

  /** A class as `visit_class_slot` sees it. */
  datatype ClassDef = ClassDef(name: string, treeRoot: bool)

  /** The slots of this class become top-level properties of the schema. */
  predicate Promoted(topCls: Option<string>, camel: string -> string, cls: ClassDef): (r: bool)
    ensures topCls == Some(cls.name) ==> r
    ensures topCls.None? ==> (r <==> cls.treeRoot)
  {
    (topCls.Some? && camel(topCls.value) == camel(cls.name)) || (topCls.None? && cls.treeRoot)
  }

  // ---- properties of the rewrite ----

  lemma SinglevaluedRef(prop: Dict<Json>, target: Json)
    requires Lookup(prop, "$ref") == Some(target)
    ensures var r := SinglevaluedFixed(prop);
            r.Success? &&
            Lookup(r.value, "$ref") == None &&
            Lookup(r.value, "oneOf") == Some(JArr([RefSchema(target), StringSchema])) &&
            forall k :: k != "$ref" && k != "oneOf" ==> Lookup(r.value, k) == Lookup(prop, k)
  {
  }

  /** Exactly one string alternative is appended at the end; nothing else changes. */
  lemma SinglevaluedOneOf(prop: Dict<Json>, xs: seq<Json>)
    requires Lookup(prop, "$ref") == None && Lookup(prop, "oneOf") == Some(JArr(xs))
    ensures var r := SinglevaluedFixed(prop);
            r.Success? &&
            Lookup(r.value, "oneOf") == Some(JArr(xs + [StringSchema])) &&
            Keys(r.value) == Keys(prop) &&
            forall k :: k != "oneOf" ==> Lookup(r.value, k) == Lookup(prop, k)
  {
  }

  lemma SinglevaluedUntouched(prop: Dict<Json>)
    requires Lookup(prop, "$ref") == None && Lookup(prop, "oneOf") == None
    ensures SinglevaluedFixed(prop) == Success(prop)
  {
  }

  /** Inside `items` the string alternative comes first, the reverse of the single-valued order. */
  lemma MultivaluedRef(prop: Dict<Json>, items: Dict<Json>, target: Json)
    requires Lookup(prop, "items") == Some(JObj(items)) && Lookup(items, "$ref") == Some(target)
    ensures var r := MultivaluedFixed(prop);
            r.Success? &&
            Keys(r.value) == Keys(prop) &&
            (forall k :: k != "items" ==> Lookup(r.value, k) == Lookup(prop, k)) &&
            exists fixed ::
              Lookup(r.value, "items") == Some(JObj(fixed)) &&
              Lookup(fixed, "$ref") == None &&
              Lookup(fixed, "oneOf") == Some(JArr([StringSchema, RefSchema(target)])) &&
              forall k :: k != "$ref" && k != "oneOf" ==> Lookup(fixed, k) == Lookup(items, k)
  {
    var fixed := Put(Remove(items, "$ref"), "oneOf", JArr([StringSchema, RefSchema(target)]));
    assert MultivaluedFixed(prop) == ItemsFixed(prop, items) == Success(Put(prop, "items", JObj(fixed)));
    assert Lookup(MultivaluedFixed(prop).value, "items") == Some(JObj(fixed));
  }

  lemma MultivaluedOneOf(prop: Dict<Json>, items: Dict<Json>, xs: seq<Json>)
    requires Lookup(prop, "items") == Some(JObj(items))
    requires Lookup(items, "$ref") == None && Lookup(items, "oneOf") == Some(JArr(xs))
    ensures var r := MultivaluedFixed(prop);
            r.Success? &&
            Keys(r.value) == Keys(prop) &&
            (forall k :: k != "items" ==> Lookup(r.value, k) == Lookup(prop, k)) &&
            exists fixed ::
              Lookup(r.value, "items") == Some(JObj(fixed)) &&
              Keys(fixed) == Keys(items) &&
              Lookup(fixed, "oneOf") == Some(JArr(xs + [StringSchema])) &&
              forall k :: k != "oneOf" ==> Lookup(fixed, k) == Lookup(items, k)
  {
    var fixed := Put(items, "oneOf", JArr(xs + [StringSchema]));
    assert MultivaluedFixed(prop) == ItemsFixed(prop, items) == Success(Put(prop, "items", JObj(fixed)));
    assert Lookup(MultivaluedFixed(prop).value, "items") == Some(JObj(fixed));
  }

  lemma MultivaluedWithoutItemsRaises(prop: Dict<Json>)
    requires Lookup(prop, "items") == None
    ensures MultivaluedFixed(prop).Failure?
  {
  }

  /**
   * Both rewrites widen a property that offers alternatives by exactly one
   * string alternative, keeping every alternative it had.
   */
  lemma SinglevaluedWidensByString(prop: Dict<Json>)
    requires SinglevaluedFixed(prop).Success? && Alternatives(prop) != []
    ensures Alternatives(SinglevaluedFixed(prop).value) == Alternatives(prop) + [StringSchema]
  {
  }

  lemma MultivaluedWidensByString(prop: Dict<Json>, items: Dict<Json>)
    requires Lookup(prop, "items") == Some(JObj(items)) && Alternatives(items) != []
    requires MultivaluedFixed(prop).Success?
    ensures exists fixed :: Lookup(MultivaluedFixed(prop).value, "items") == Some(JObj(fixed)) &&
              multiset(Alternatives(fixed)) == multiset(Alternatives(items)) + multiset{StringSchema}
  {
    assert MultivaluedFixed(prop) == ItemsFixed(prop, items);
    if Lookup(items, "$ref").Some? {
      var target := Lookup(items, "$ref").value;
      var fixed := Put(Remove(items, "$ref"), "oneOf", JArr([StringSchema, RefSchema(target)]));
      ItemsRefWidens(items, target);
      assert Lookup(MultivaluedFixed(prop).value, "items") == Some(JObj(fixed));
    } else {
      var xs := Lookup(items, "oneOf").value.elems;
      var fixed := Put(items, "oneOf", JArr(xs + [StringSchema]));
      ItemsOneOfWidens(items, xs);
      assert Lookup(MultivaluedFixed(prop).value, "items") == Some(JObj(fixed));
    }
  }

  lemma ItemsRefWidens(items: Dict<Json>, target: Json)
    requires Lookup(items, "$ref") == Some(target)
    ensures var fixed := Put(Remove(items, "$ref"), "oneOf", JArr([StringSchema, RefSchema(target)]));
            multiset(Alternatives(fixed)) == multiset(Alternatives(items)) + multiset{StringSchema}
  {
    var fixed := Put(Remove(items, "$ref"), "oneOf", JArr([StringSchema, RefSchema(target)]));
    assert Lookup(fixed, "$ref") == None;
    assert Alternatives(fixed) == [StringSchema, RefSchema(target)];
    assert Alternatives(items) == [RefSchema(target)];
  }

  lemma ItemsOneOfWidens(items: Dict<Json>, xs: seq<Json>)
    requires Lookup(items, "$ref") == None && Lookup(items, "oneOf") == Some(JArr(xs))
    ensures Alternatives(Put(items, "oneOf", JArr(xs + [StringSchema]))) == Alternatives(items) + [StringSchema]
  {
  }

  /** Only reference slots are rewritten: arrays by the multivalued fix, everything else by the single-valued one. */
  lemma RewriteDispatch(references: set<string>, alias: string, prop: Dict<Json>)
    ensures alias !in references ==> Rewritten(references, alias, prop) == Success(prop)
    ensures alias in references && Lookup(prop, "type") == Some(JStr("array")) ==>
              Rewritten(references, alias, prop) == MultivaluedFixed(prop)
    ensures alias in references && Lookup(prop, "type") != Some(JStr("array")) ==>
              Rewritten(references, alias, prop) == SinglevaluedFixed(prop)
  {
  }

  // ---- the generator ----

  /** A JSON object that is updated in place and may be shared. */
  class JsonObject {
    var fields: Dict<Json>

    constructor (fields: Dict<Json>)
      ensures this.fields == fields
    {
      this.fields := fields;
    }
  }

  class Generator {
    const camel: string -> string
    const under: string -> string
    const topCls: Option<string>
    var referenceSlots: set<string>
    /** The properties of the class object being generated. */
    var classProperties: Dict<JsonObject>
    /** The top-level properties of the schema object. */
    var schemaProperties: Dict<JsonObject>

    /** `aliases` holds `aliased_slot_name` of every slot of the schema. */
    constructor (aliases: seq<string>, topCls: Option<string>, camel: string -> string, under: string -> string)
      ensures this.topCls == topCls && this.camel == camel && this.under == under
      ensures referenceSlots == RawReferenceSlots(aliases)
      ensures classProperties == [] && schemaProperties == []
    {
      this.camel := camel;
      this.under := under;
      this.topCls := topCls;
      var references: set<string> := {};
      for i := 0 to |aliases|
        invariant references == RawReferenceSlots(aliases[..i])
      {
        assert aliases[..i + 1] == aliases[..i] + [aliases[i]];
        if IsReferenceAlias(aliases[i]) {
          references := references + {aliases[i]};
        }
      }
      assert aliases[..|aliases|] == aliases;
      referenceSlots := references;
      classProperties := [];
      schemaProperties := [];
    }

    method FixSinglevaluedSlot(prop: JsonObject) returns (ok: bool)
      modifies prop
      ensures ok == SinglevaluedFixed(old(prop.fields)).Success?
      ensures prop.fields == if ok then SinglevaluedFixed(old(prop.fields)).value else old(prop.fields)
    {
      var fields := prop.fields;
      match Lookup<Json>(fields, "$ref") {
        case Some(target) =>
          var oneOf := [RefSchema(target)];
          oneOf := oneOf + [StringSchema];
          assert oneOf == [RefSchema(target), StringSchema];
          fields := Remove(fields, "$ref");
          prop.fields := Put(fields, "oneOf", JArr(oneOf));
          ok := true;
        case None =>
          match Lookup<Json>(fields, "oneOf") {
            case Some(JArr(xs)) =>
              prop.fields := Put(fields, "oneOf", JArr(xs + [StringSchema]));
              ok := true;
            case Some(_) =>
              ok := false;
            case None =>
              ok := true;
          }
      }
    }

    method FixMultivaluedSlot(prop: JsonObject) returns (ok: bool)
      modifies prop
      ensures ok == MultivaluedFixed(old(prop.fields)).Success?
      ensures prop.fields == if ok then MultivaluedFixed(old(prop.fields)).value else old(prop.fields)
    {
      match Lookup<Json>(prop.fields, "items") {
        case None =>
          ok := false;
        case Some(JObj(items)) =>
          ok := FixItems(prop, items);
        case Some(JArr(xs)) =>
          ok := !(JStr("$ref") in xs || JStr("oneOf") in xs);
        case Some(JStr(t)) =>
          ok := !(Contains(t, "$ref") || Contains(t, "oneOf"));
        case Some(_) =>
          ok := false;
      }
    }

    /** The part of `FixMultivaluedSlot` that rewrites an `items` object. */
    method FixItems(prop: JsonObject, items: Dict<Json>) returns (ok: bool)
      modifies prop
      ensures ok == ItemsFixed(old(prop.fields), items).Success?
      ensures prop.fields == if ok then ItemsFixed(old(prop.fields), items).value else old(prop.fields)
    {
      var fields := prop.fields;
      var oneOf := [StringSchema];
      match Lookup<Json>(items, "$ref") {
        case Some(target) =>
          oneOf := oneOf + [RefSchema(target)];
          assert oneOf == [StringSchema, RefSchema(target)];
          var fixedItems := Remove(items, "$ref");
          fixedItems := Put(fixedItems, "oneOf", JArr(oneOf));
          prop.fields := Put(fields, "items", JObj(fixedItems));
          ok := true;
        case None =>
          match Lookup<Json>(items, "oneOf") {
            case Some(JArr(xs)) =>
              // the list is appended in place, which changes the items object inside the property
              prop.fields := Put(fields, "items", JObj(Put(items, "oneOf", JArr(xs + [StringSchema]))));
              ok := true;
            case Some(_) =>
              ok := false;
            case None =>
              ok := true;
          }
      }
    }

    /**
     * Visits slot `alias` of class `cls`. `generated` is the property the
     * base generator produced for the slot and stored in the class object.
     * `ok` is false when the rewrite raised, in which case nothing is
     * promoted.
     */
    method VisitClassSlot(cls: ClassDef, alias: string, generated: JsonObject) returns (ok: bool)
      modifies this`classProperties, this`schemaProperties, generated
      ensures classProperties == Put(old(classProperties), under(alias), generated)
      ensures var r := Rewritten(referenceSlots, alias, old(generated.fields));
              ok == r.Success? && generated.fields == if ok then r.value else old(generated.fields)
      ensures schemaProperties ==
                if ok && Promoted(topCls, camel, cls) then Put(old(schemaProperties), under(alias), generated)
                else old(schemaProperties)
    {
      classProperties := Put(classProperties, under(alias), generated);
      var prop := Lookup(classProperties, under(alias)).value;
      ok := true;
      if alias in referenceSlots {
        if Lookup(prop.fields, "type").Some? {
          if Lookup(prop.fields, "type") == Some(JStr("array")) {
            ok := FixMultivaluedSlot(prop);
          } else {
            ok := FixSinglevaluedSlot(prop);
          }
        } else {
          ok := FixSinglevaluedSlot(prop);
        }
      }
      if !ok {
        return;
      }
      if Promoted(topCls, camel, cls) {
        schemaProperties := Put(schemaProperties, under(alias), prop);
      }
    }
  }
}

=== FILE: ordered_dicts.dfy ===
/**
 * Python dictionaries as the generators use them: insertion-ordered, keyed by
 * strings. Assigning to a present key replaces its value where it stands;
 * assigning to an absent key appends it; `del` removes it.
 */
module OrderedDicts {
  import opened Wrappers

  datatype Entry<V> = Entry(key: string, value: V)

  type Dict<V> = seq<Entry<V>>

  /** The keys in insertion order. */
  function Keys<V>(d: Dict<V>): (ks: seq<string>)
    ensures |ks| == |d|
    ensures forall i :: 0 <= i < |d| ==> ks[i] == d[i].key
  {
    if d == [] then [] else [d[0].key] + Keys(d[1..])
  }

  /** `d.get(k)` */
  function Lookup<V>(d: Dict<V>, k: string): (r: Option<V>)
    ensures r.Some? <==> k in Keys(d)
  {
    if d == [] then None
    else if d[0].key == k then Some(d[0].value)
    else Lookup(d[1..], k)
  }

  /** `d[k] = v` */
  function Put<V>(d: Dict<V>, k: string, v: V): (r: Dict<V>)
    ensures Lookup(r, k) == Some(v)
    ensures forall k' :: k' != k ==> Lookup(r, k') == Lookup(d, k')
    ensures Keys(r) == if k in Keys(d) then Keys(d) else Keys(d) + [k]
  {
    if d == [] then [Entry(k, v)]
    else
      assert Keys(d) == [d[0].key] + Keys(d[1..]);
      if d[0].key == k then
        var r := [Entry(k, v)] + d[1..];
        assert r[1..] == d[1..];
        r
      else
        var rest := Put(d[1..], k, v);
        var r := [d[0]] + rest;
        assert r[1..] == rest;
        assert k in Keys(d) <==> k in Keys(d[1..]);
        assert Keys(r) == [d[0].key] + Keys(rest);
        r
  }

  /** Every entry after an assignment was there before or is the assigned one. */
  lemma {:induction false} PutEntries<V>(d: Dict<V>, k: string, v: V)
    ensures forall e :: e in Put(d, k, v) ==> e in d || e == Entry(k, v)
  {
    if d != [] && d[0].key != k {
      PutEntries(d[1..], k, v);
      assert Put(d, k, v) == [d[0]] + Put(d[1..], k, v);
    }
  }

  /** The keys `ks` with every occurrence of `k` dropped, the others in their order. */
  function Without(ks: seq<string>, k: string): (r: seq<string>)
    ensures |r| <= |ks|
    ensures forall k' :: k' in r <==> k' in ks && k' != k
  {
    if ks == [] then []
    else if ks[0] == k then Without(ks[1..], k)
    else [ks[0]] + Without(ks[1..], k)
  }

  /** `del d[k]` */
  function Remove<V>(d: Dict<V>, k: string): (r: Dict<V>)
    ensures Lookup(r, k) == None
    ensures forall k' :: k' != k ==> Lookup(r, k') == Lookup(d, k')
    ensures forall k' :: k' in Keys(r) <==> k' in Keys(d) && k' != k
    ensures Keys(r) == Without(Keys(d), k)
  {
    if d == [] then []
    else
      assert Keys(d)[1..] == Keys(d[1..]);
      if d[0].key == k then Remove(d[1..], k)
      else
        var rest := Remove(d[1..], k);
        assert Keys([d[0]] + rest) == [d[0].key] + Keys(rest);
        [d[0]] + rest
  }
}

=== FILE: pydantic_generator.dfy ===
/**
 * The Pydantic generator's pass over a schema: it computes the set of
 * reference slots once, then walks the classes (base classes first) and
 * their induced slots, annotating every slot with its type expression and
 * registering the discriminated unions the slots ask for.
 */
module PydanticGenerator {
  import opened Wrappers
  import opened OrderedDicts
  import opened ReferenceSlots
  import opened PydanticRanges

  /** A class of the schema as the pass receives it, with its induced slots. */
  datatype ClassInput = ClassInput(
    name: string,
    classUri: string,
    isA: Option<string>,
    mixins: seq<string>,
    description: Option<string>,
    slots: seq<Slot>)

  /** A slot of a generated class with its `python_range` annotation. */
  datatype Attribute = Attribute(slot: Slot, pythonRange: string)

  /** A generated class: the schema class renamed, with annotated attributes. */
  datatype PyClass = PyClass(
    name: string,
    isA: Option<string>,
    mixins: seq<string>,
    description: Option<string>,
    attributes: Dict<Attribute>)

  /** What the pass reads: the schema view, the naming functions and the reference slots. */
  datatype Context = Context(sv: SchemaView, nm: Naming, references: set<string>)

  // ---- reference slots ----

  /** The reference slots: the underscored aliases that pass the reference test. */
  function ReferenceSlotNames(nm: Naming, aliases: seq<string>): (r: set<string>)
    ensures forall a :: a in aliases && IsReferenceAlias(a) ==> nm.under(a) in r
  {
    set a | a in aliases && IsReferenceAlias(a) :: nm.under(a)
  }

  /** The names kept here are the underscored forms of the aliases the JSON Schema generator keeps. */
  lemma ReferenceSlotNamesUnderscored(nm: Naming, aliases: seq<string>)
    ensures ReferenceSlotNames(nm, aliases) == set a | a in RawReferenceSlots(aliases) :: nm.under(a)
  {
    var lhs := ReferenceSlotNames(nm, aliases);
    var rhs := set a | a in RawReferenceSlots(aliases) :: nm.under(a);
    forall n | n in lhs ensures n in rhs {
      var a :| a in aliases && IsReferenceAlias(a) && nm.under(a) == n;
      assert a in RawReferenceSlots(aliases);
    }
    forall n | n in rhs ensures n in lhs {
      var a :| a in RawReferenceSlots(aliases) && nm.under(a) == n;
    }
  }

  lemma ReferenceSlotMembership(nm: Naming, aliases: seq<string>, name: string)
    ensures name in ReferenceSlotNames(nm, aliases) <==>
      exists i :: 0 <= i < |aliases| && IsReferenceAlias(aliases[i]) && nm.under(aliases[i]) == name
  {
    if name in ReferenceSlotNames(nm, aliases) {
      var a :| a in aliases && IsReferenceAlias(a) && nm.under(a) == name;
      var i :| 0 <= i < |aliases| && aliases[i] == a;
    }
  }

  // ---- text escaping ----

  /** Python's `s.replace('"', '\\"')`: every double quote gains a backslash. */
  function Escaped(s: string): (r: string)
    ensures |r| >= |s|
  {
    if s == [] then []
    else (if s[0] == '"' then ['\\', '"'] else [s[0]]) + Escaped(s[1..])
  }

  /** Reads an escaped text back: a backslash followed by a double quote is one double quote. */
  function Unescaped(s: string): string {
    if |s| >= 2 && s[0] == '\\' && s[1] == '"' then ['"'] + Unescaped(s[2..])
    else if s == [] then []
    else [s[0]] + Unescaped(s[1..])
  }

  lemma {:induction false} EscapedNeverStartsWithQuote(s: string)
    ensures Escaped(s) == [] || Escaped(s)[0] != '"'
  {
  }

  /** Escaping loses nothing: the description can be read back. */
  lemma {:induction false} EscapedRoundTrip(s: string)
    ensures Unescaped(Escaped(s)) == s
  {
    if s != [] {
      var rest := Escaped(s[1..]);
      EscapedRoundTrip(s[1..]);
      if s[0] == '"' {
        assert Escaped(s) == ['\\', '"'] + rest;
        assert (['\\', '"'] + rest)[2..] == rest;
      } else {
        assert Escaped(s) == [s[0]] + rest;
        EscapedNeverStartsWithQuote(s[1..]);
        assert ([s[0]] + rest)[1..] == rest;
      }
    }
  }

  function EscapedText(d: Option<string>): (r: Option<string>)
    ensures r.Some? <==> d.Some?
    ensures d.Some? ==> r == Some(Escaped(d.value))
  {
    match d
    case None => None
    case Some(t) => Some(Escaped(t))
  }

  /** The message of `None.replace(...)`. */
  const NoReplace := "AttributeError: 'NoneType' object has no attribute 'replace'"

  // ---- one class, one slot ----

  /** The classes the pass generates: every class except those whose URI is `linkml:Any`, in order. */
  function Generated(cs: seq<ClassInput>): (r: seq<ClassInput>)
    ensures forall c :: c in r <==> c in cs && c.classUri != AnyClassUri
    ensures |r| <= |cs|
  {
    if cs == [] then []
    else (if cs[0].classUri == AnyClassUri then [] else [cs[0]]) + Generated(cs[1..])
  }

  /** The generated class before its attributes are added: renamed, parents renamed, description escaped. */
  function ClassHeader(nm: Naming, c: ClassInput): (r: PyClass)
    ensures r.name == nm.camel(c.name) && r.attributes == []
    ensures r.mixins == CamelAll(nm, c.mixins)
    ensures r.isA.Some? <==> c.isA.Some?
    ensures c.isA.Some? && c.isA.value != "" ==> r.isA == Some(nm.camel(c.isA.value))
    ensures r.description == EscapedText(c.description)
  {
    PyClass(nm.camel(c.name),
            if c.isA.Some? && c.isA.value != "" then Some(nm.camel(c.isA.value)) else c.isA,
            CamelAll(nm, c.mixins),
            EscapedText(c.description),
            [])
  }

  /** The copy of an induced slot that becomes an attribute: underscored name, escaped description. */
  function PreparedSlot(nm: Naming, s: Slot): (r: Slot)
    ensures r.(name := s.name, description := s.description) == s
    ensures r.name == nm.under(s.name) && r.description == EscapedText(s.description)
  {
    s.(name := nm.under(s.name), description := EscapedText(s.description))
  }

  /** The union registry: a union is added under its name only when that name is not yet taken. */
  function Register(unions: Dict<AnnotatedUnion>, u: Option<AnnotatedUnion>): (r: Dict<AnnotatedUnion>)
    ensures Keys(unions) <= Keys(r)
    ensures |r| <= |unions| + 1
  {
    if u.Some? && u.value.name !in Keys(unions) then Put(unions, u.value.name, u.value) else unions
  }

  /** An entry of the registry is never overwritten; a requested union is present afterwards. */
  lemma RegisterNeverOverwrites(unions: Dict<AnnotatedUnion>, u: Option<AnnotatedUnion>)
    ensures forall k :: k in Keys(unions) ==> Lookup(Register(unions, u), k) == Lookup(unions, k)
    ensures u.Some? ==> u.value.name in Keys(Register(unions, u))
    ensures u.Some? && u.value.name !in Keys(unions) ==> Lookup(Register(unions, u), u.value.name) == u
    ensures u.None? ==> Register(unions, u) == unions
  {
  }

  // ---- the pass, as a left fold ----

  /** The state while one class's slots are processed; `failure` is the message of the exception raised. */
  datatype ClassPass = ClassPass(unions: Dict<AnnotatedUnion>, cls: PyClass, failure: Option<string>)

  function SlotStep(ctx: Context, prev: ClassPass, raw: Slot): (r: ClassPass)
    ensures r.cls.name == prev.cls.name
    ensures Keys(prev.cls.attributes) <= Keys(r.cls.attributes)
    ensures r.failure.None? ==> PreparedSlot(ctx.nm, raw).name in Keys(r.cls.attributes)
    ensures r.failure.None? ==>
      var s := PreparedSlot(ctx.nm, raw);
      SlotType(ctx.sv, ctx.nm, ctx.references, prev.cls.name, s).Success? &&
      Lookup(r.cls.attributes, s.name) == Some(Attribute(s, SlotType(ctx.sv, ctx.nm, ctx.references, prev.cls.name, s).value.pyrange))
    ensures r.failure.Some? ==> r.unions == prev.unions && r.cls == prev.cls
  {
    var s := PreparedSlot(ctx.nm, raw);
    match SlotType(ctx.sv, ctx.nm, ctx.references, prev.cls.name, s)
    case Failure(e) => prev.(failure := Some(e))
    case Success(r) =>
      ClassPass(Register(prev.unions, r.union),
                prev.cls.(attributes := Put(prev.cls.attributes, s.name, Attribute(s, r.pyrange))),
                None)
  }

  /** The slots of one class, in order, stopping at the first one that raises. */
  function SlotsPass(ctx: Context, unions: Dict<AnnotatedUnion>, header: PyClass, slots: seq<Slot>): (r: ClassPass)
    ensures r.cls.name == header.name
    ensures Keys(header.attributes) <= Keys(r.cls.attributes)
    decreases |slots|
  {
    if slots == [] then ClassPass(unions, header, None)
    else
      var prev := SlotsPass(ctx, unions, header, slots[..|slots| - 1]);
      if prev.failure.Some? then prev else SlotStep(ctx, prev, slots[|slots| - 1])
  }

  /** The state of the whole pass: the registry, the generated classes by name, and the exception if any. */
  datatype Pass = Pass(unions: Dict<AnnotatedUnion>, classes: Dict<PyClass>, failure: Option<string>)

  /** The classes, in order, stopping at the first slot that raises. */
  function ClassesPass(ctx: Context, unions: Dict<AnnotatedUnion>, cs: seq<ClassInput>): (r: Pass)
    ensures |r.classes| <= |cs|
    decreases |cs|
  {
    if cs == [] then Pass(unions, [], None)
    else
      var prev := ClassesPass(ctx, unions, cs[..|cs| - 1]);
      if prev.failure.Some? then prev
      else
        var c := cs[|cs| - 1];
        var cp := SlotsPass(ctx, prev.unions, ClassHeader(ctx.nm, c), c.slots);
        Pass(cp.unions, Put(prev.classes, cp.cls.name, cp.cls), cp.failure)
  }

  /** When no slot raises, every slot of the class becomes an attribute under its underscored name. */
  lemma {:induction false} SlotsPassAnnotatesEverySlot(ctx: Context, unions: Dict<AnnotatedUnion>, header: PyClass, slots: seq<Slot>)
    requires SlotsPass(ctx, unions, header, slots).failure.None?
    ensures forall s :: s in slots ==> PreparedSlot(ctx.nm, s).name in Keys(SlotsPass(ctx, unions, header, slots).cls.attributes)
    decreases |slots|
  {
    if slots != [] {
      var init := slots[..|slots| - 1];
      var prev := SlotsPass(ctx, unions, header, init);
      SlotsPassAnnotatesEverySlot(ctx, unions, header, init);
      var r := SlotsPass(ctx, unions, header, slots);
      assert r == SlotStep(ctx, prev, slots[|slots| - 1]);
      forall s | s in slots
        ensures PreparedSlot(ctx.nm, s).name in Keys(r.cls.attributes)
      {
        if s != slots[|slots| - 1] {
          assert s in init;
          assert PreparedSlot(ctx.nm, s).name in Keys(prev.cls.attributes);
        }
      }
    }
  }

  /**
   * Every attribute of a class is stored under the name of its slot and
   * carries the type expression the per-slot resolution gives that slot.
   */
  predicate Annotated(ctx: Context, className: string, attrs: Dict<Attribute>) {
    forall e :: e in attrs ==>
      e.key == e.value.slot.name &&
      SlotType(ctx.sv, ctx.nm, ctx.references, className, e.value.slot).Success? &&
      e.value.pythonRange == SlotType(ctx.sv, ctx.nm, ctx.references, className, e.value.slot).value.pyrange
  }

  /** The slot pass annotates each attribute with the resolved type of its slot, and nothing else. */
  lemma {:induction false} SlotsPassAnnotated(ctx: Context, unions: Dict<AnnotatedUnion>, header: PyClass, slots: seq<Slot>)
    requires Annotated(ctx, header.name, header.attributes)
    ensures Annotated(ctx, header.name, SlotsPass(ctx, unions, header, slots).cls.attributes)
    decreases |slots|
  {
    if slots != [] {
      var init := slots[..|slots| - 1];
      var prev := SlotsPass(ctx, unions, header, init);
      SlotsPassAnnotated(ctx, unions, header, init);
      if prev.failure.None? {
        var s := PreparedSlot(ctx.nm, slots[|slots| - 1]);
        var t := SlotType(ctx.sv, ctx.nm, ctx.references, prev.cls.name, s);
        if t.Success? {
          PutEntries(prev.cls.attributes, s.name, Attribute(s, t.value.pyrange));
        }
      }
    }
  }

  /** Every class the pass generates has every attribute annotated with its slot's resolved type. */
  lemma {:induction false} ClassesPassAnnotated(ctx: Context, unions: Dict<AnnotatedUnion>, cs: seq<ClassInput>)
    ensures forall e :: e in ClassesPass(ctx, unions, cs).classes ==> Annotated(ctx, e.key, e.value.attributes)
    decreases |cs|
  {
    if cs != [] {
      var init := cs[..|cs| - 1];
      var prev := ClassesPass(ctx, unions, init);
      ClassesPassAnnotated(ctx, unions, init);
      if prev.failure.None? {
        var c := cs[|cs| - 1];
        var header := ClassHeader(ctx.nm, c);
        SlotsPassAnnotated(ctx, prev.unions, header, c.slots);
        var cp := SlotsPass(ctx, prev.unions, header, c.slots);
        PutEntries(prev.classes, cp.cls.name, cp.cls);
      }
    }
  }

  /** When no slot raises, every class handed to the pass is generated, under its camel-cased name. */
  lemma {:induction false} ClassesPassGeneratesEveryClass(ctx: Context, unions: Dict<AnnotatedUnion>, cs: seq<ClassInput>)
    requires ClassesPass(ctx, unions, cs).failure.None?
    ensures forall c :: c in cs ==> ctx.nm.camel(c.name) in Keys(ClassesPass(ctx, unions, cs).classes)
    decreases |cs|
  {
    if cs != [] {
      var init := cs[..|cs| - 1];
      var prev := ClassesPass(ctx, unions, init);
      assert prev.failure.None?;
      ClassesPassGeneratesEveryClass(ctx, unions, init);
      var last := cs[|cs| - 1];
      var cp := SlotsPass(ctx, prev.unions, ClassHeader(ctx.nm, last), last.slots);
      var r := ClassesPass(ctx, unions, cs);
      assert r.classes == Put(prev.classes, cp.cls.name, cp.cls);
      forall c | c in cs
        ensures ctx.nm.camel(c.name) in Keys(r.classes)
      {
        if c != last {
          assert c in init;
        }
      }
    }
  }

  /** One step of the class fold: the pass over the next class, run on the registry so far. */
  lemma ClassesPassStep(ctx: Context, unions: Dict<AnnotatedUnion>, cs: seq<ClassInput>, i: nat, prev: Pass, cp: ClassPass)
    requires i < |cs|
    requires prev == ClassesPass(ctx, unions, cs[..i]) && prev.failure.None?
    requires cp == SlotsPass(ctx, prev.unions, ClassHeader(ctx.nm, cs[i]), cs[i].slots)
    ensures ClassesPass(ctx, unions, cs[..i + 1]) == Pass(cp.unions, Put(prev.classes, cp.cls.name, cp.cls), cp.failure)
  {
    assert cs[..i + 1][..i] == cs[..i];
  }

  lemma {:induction false} SlotsPassSticky(ctx: Context, unions: Dict<AnnotatedUnion>, header: PyClass, slots: seq<Slot>, j: nat)
    requires j <= |slots|
    requires SlotsPass(ctx, unions, header, slots[..j]).failure.Some?
    ensures SlotsPass(ctx, unions, header, slots) == SlotsPass(ctx, unions, header, slots[..j])
    decreases |slots| - j
  {
    if j < |slots| {
      assert slots[..j + 1][..j] == slots[..j];
      SlotsPassSticky(ctx, unions, header, slots, j + 1);
    } else {
      assert slots[..j] == slots;
    }
  }

  lemma {:induction false} ClassesPassSticky(ctx: Context, unions: Dict<AnnotatedUnion>, cs: seq<ClassInput>, i: nat)
    requires i <= |cs|
    requires ClassesPass(ctx, unions, cs[..i]).failure.Some?
    ensures ClassesPass(ctx, unions, cs) == ClassesPass(ctx, unions, cs[..i])
    decreases |cs| - i
  {
    if i < |cs| {
      assert cs[..i + 1][..i] == cs[..i];
      ClassesPassSticky(ctx, unions, cs, i + 1);
    } else {
      assert cs[..i] == cs;
    }
  }

  // ---- the registry across a pass ----

  /** What the pass generates, and whether it raises, does not depend on the registry it starts with. */
  lemma {:induction false} SlotsPassIgnoresRegistry(ctx: Context, u: Dict<AnnotatedUnion>, v: Dict<AnnotatedUnion>, header: PyClass, slots: seq<Slot>)
    ensures SlotsPass(ctx, u, header, slots).cls == SlotsPass(ctx, v, header, slots).cls
    ensures SlotsPass(ctx, u, header, slots).failure == SlotsPass(ctx, v, header, slots).failure
    decreases |slots|
  {
    if slots != [] {
      SlotsPassIgnoresRegistry(ctx, u, v, header, slots[..|slots| - 1]);
    }
  }

  /** A pass over one class keeps every registry entry it finds. */
  lemma {:induction false} SlotsPassKeepsEntries(ctx: Context, unions: Dict<AnnotatedUnion>, header: PyClass, slots: seq<Slot>)
    ensures forall k :: k in Keys(unions) ==> Lookup(SlotsPass(ctx, unions, header, slots).unions, k) == Lookup(unions, k)
    decreases |slots|
  {
    if slots != [] {
      var prev := SlotsPass(ctx, unions, header, slots[..|slots| - 1]);
      SlotsPassKeepsEntries(ctx, unions, header, slots[..|slots| - 1]);
      if prev.failure.None? {
        var s := PreparedSlot(ctx.nm, slots[|slots| - 1]);
        var r := SlotType(ctx.sv, ctx.nm, ctx.references, prev.cls.name, s);
        if r.Success? {
          RegisterNeverOverwrites(prev.unions, r.value.union);
        }
      }
    }
  }

  /** Starting from a registry that already holds every name the pass would register, the pass adds nothing. */
  lemma {:induction false} SlotsPassAbsorbed(ctx: Context, u: Dict<AnnotatedUnion>, v: Dict<AnnotatedUnion>, header: PyClass, slots: seq<Slot>)
    requires forall k :: k in Keys(SlotsPass(ctx, u, header, slots).unions) ==> k in Keys(v)
    ensures SlotsPass(ctx, v, header, slots).unions == v
    decreases |slots|
  {
    if slots != [] {
      var init := slots[..|slots| - 1];
      var prevU := SlotsPass(ctx, u, header, init);
      var prevV := SlotsPass(ctx, v, header, init);
      SlotsPassIgnoresRegistry(ctx, u, v, header, init);
      if prevU.failure.None? {
        var s := PreparedSlot(ctx.nm, slots[|slots| - 1]);
        var r := SlotType(ctx.sv, ctx.nm, ctx.references, prevU.cls.name, s);
        if r.Success? {
          RegisterNeverOverwrites(prevU.unions, r.value.union);
        }
      }
      SlotsPassAbsorbed(ctx, u, v, header, init);
    }
  }

  lemma {:induction false} ClassesPassIgnoresRegistry(ctx: Context, u: Dict<AnnotatedUnion>, v: Dict<AnnotatedUnion>, cs: seq<ClassInput>)
    ensures ClassesPass(ctx, u, cs).classes == ClassesPass(ctx, v, cs).classes
    ensures ClassesPass(ctx, u, cs).failure == ClassesPass(ctx, v, cs).failure
    decreases |cs|
  {
    if cs != [] {
      var init := cs[..|cs| - 1];
      ClassesPassIgnoresRegistry(ctx, u, v, init);
      var c := cs[|cs| - 1];
      SlotsPassIgnoresRegistry(ctx, ClassesPass(ctx, u, init).unions, ClassesPass(ctx, v, init).unions,
                               ClassHeader(ctx.nm, c), c.slots);
    }
  }

  /** The pass never overwrites a union that is already registered. */
  lemma {:induction false} ClassesPassKeepsEntries(ctx: Context, unions: Dict<AnnotatedUnion>, cs: seq<ClassInput>)
    ensures forall k :: k in Keys(unions) ==> Lookup(ClassesPass(ctx, unions, cs).unions, k) == Lookup(unions, k)
    decreases |cs|
  {
    if cs != [] {
      var init := cs[..|cs| - 1];
      ClassesPassKeepsEntries(ctx, unions, init);
      var prev := ClassesPass(ctx, unions, init);
      var c := cs[|cs| - 1];
      SlotsPassKeepsEntries(ctx, prev.unions, ClassHeader(ctx.nm, c), c.slots);
    }
  }

  /** What the pass has registered after the first `i` classes stays registered, unchanged, to the end. */
  lemma {:induction false} ClassesPassKeepsEarlierEntries(ctx: Context, unions: Dict<AnnotatedUnion>, cs: seq<ClassInput>, i: nat)
    requires i <= |cs|
    ensures forall k :: k in Keys(ClassesPass(ctx, unions, cs[..i]).unions) ==>
      Lookup(ClassesPass(ctx, unions, cs).unions, k) == Lookup(ClassesPass(ctx, unions, cs[..i]).unions, k)
    decreases |cs| - i
  {
    if i == |cs| {
      assert cs[..i] == cs;
    } else {
      assert cs[..i + 1][..i] == cs[..i];
      var prev := ClassesPass(ctx, unions, cs[..i]);
      SlotsPassKeepsEntries(ctx, prev.unions, ClassHeader(ctx.nm, cs[i]), cs[i].slots);
      ClassesPassKeepsEarlierEntries(ctx, unions, cs, i + 1);
    }
  }

  lemma {:induction false} ClassesPassAbsorbed(ctx: Context, u: Dict<AnnotatedUnion>, v: Dict<AnnotatedUnion>, cs: seq<ClassInput>)
    requires forall k :: k in Keys(ClassesPass(ctx, u, cs).unions) ==> k in Keys(v)
    ensures ClassesPass(ctx, v, cs).unions == v
    decreases |cs|
  {
    if cs != [] {
      var init := cs[..|cs| - 1];
      var prevU := ClassesPass(ctx, u, init);
      ClassesPassIgnoresRegistry(ctx, u, v, init);
      if prevU.failure.None? {
        var c := cs[|cs| - 1];
        SlotsPassKeepsEntries(ctx, prevU.unions, ClassHeader(ctx.nm, c), c.slots);
        ClassesPassAbsorbed(ctx, u, v, init);
        SlotsPassAbsorbed(ctx, prevU.unions, v, ClassHeader(ctx.nm, c), c.slots);
      } else {
        ClassesPassAbsorbed(ctx, u, v, init);
      }
    }
  }

  /**
   * Running the pass a second time, on the registry the first run left,
   * yields the same classes, the same outcome and the same registry.
   */
  lemma SerializeIdempotent(ctx: Context, unions: Dict<AnnotatedUnion>, cs: seq<ClassInput>)
    ensures ClassesPass(ctx, ClassesPass(ctx, unions, cs).unions, cs) == ClassesPass(ctx, unions, cs)
  {
    var p := ClassesPass(ctx, unions, cs);
    ClassesPassIgnoresRegistry(ctx, unions, p.unions, cs);
    ClassesPassAbsorbed(ctx, unions, p.unions, cs);
  }

  // ---- the generator ----

  class Generator {
    const sv: SchemaView
    const nm: Naming
    var referenceSlots: set<string>
    var annotatedUnions: Dict<AnnotatedUnion>

    /** `aliases` holds `aliased_slot_name` of every slot of the schema. */
    constructor (sv: SchemaView, nm: Naming, aliases: seq<string>)
      ensures this.sv == sv && this.nm == nm
      ensures referenceSlots == ReferenceSlotNames(nm, aliases)
      ensures annotatedUnions == []
    {
      this.sv := sv;
      this.nm := nm;
      var references: set<string> := {};
      for i := 0 to |aliases|
        invariant references == ReferenceSlotNames(nm, aliases[..i])
      {
        assert aliases[..i + 1] == aliases[..i] + [aliases[i]];
        if IsReferenceAlias(aliases[i]) {
          references := references + {nm.under(aliases[i])};
        }
      }
      assert aliases[..|aliases|] == aliases;
      referenceSlots := references;
      annotatedUnions := [];
    }

    /**
     * Annotates the slots of one class in order, registering the unions
     * they ask for; stops at the first slot whose range cannot be resolved
     * and returns that exception's message.
     */
    method AnnotateSlots(header: PyClass, slots: seq<Slot>) returns (classDef: PyClass, failure: Option<string>)
      modifies this`annotatedUnions
      ensures SlotsPass(Context(sv, nm, referenceSlots), old(annotatedUnions), header, slots)
           == ClassPass(annotatedUnions, classDef, failure)
    {
      ghost var ctx := Context(sv, nm, referenceSlots);
      classDef := header;
      for j := 0 to |slots|
        invariant SlotsPass(ctx, old(annotatedUnions), header, slots[..j]) == ClassPass(annotatedUnions, classDef, None)
      {
        assert slots[..j + 1][..j] == slots[..j];
        var s := PreparedSlot(nm, slots[j]);
        // the attribute is entered under its underscored name and annotated once resolved
        var resolved := SlotType(sv, nm, referenceSlots, classDef.name, s);
        if resolved.Failure? {
          SlotsPassSticky(ctx, old(annotatedUnions), header, slots, j + 1);
          return classDef, Some(resolved.error);
        }
        var union := resolved.value.union;
        annotatedUnions := Register(annotatedUnions, union);
        classDef := classDef.(attributes := Put(classDef.attributes, s.name, Attribute(s, resolved.value.pyrange)));
      }
      assert slots[..|slots|] == slots;
      failure := None;
    }

    /**
     * Annotates every slot of every generated class with its type
     * expression and registers the unions the slots ask for. Returns the
     * generated classes by name, or the message of the exception raised for
     * a range that cannot be resolved; the unions registered before that
     * slot stay registered. `schemaDescription` is the schema's own
     * description, which is escaped without a check that it is present:
     * when it is absent the pass raises before any class is visited.
     */
    method Serialize(schemaDescription: Option<string>, classes: seq<ClassInput>) returns (r: Result<Dict<PyClass>>)
      modifies this`annotatedUnions
      ensures schemaDescription.None? ==> r == Failure(NoReplace) && annotatedUnions == old(annotatedUnions)
      ensures schemaDescription.Some? ==>
              var p := ClassesPass(Context(sv, nm, referenceSlots), old(annotatedUnions), Generated(classes));
              annotatedUnions == p.unions &&
              r == if p.failure.Some? then Failure(p.failure.value) else Success(p.classes)
    {
      if schemaDescription.None? {
        return Failure(NoReplace);
      }
      ghost var ctx := Context(sv, nm, referenceSlots);
      var sorted := Generated(classes);
      var pyClasses: Dict<PyClass> := [];
      var failure: Option<string> := None;
      var i := 0;
      while i < |sorted| && failure.None?
        invariant i <= |sorted|
        invariant ClassesPass(ctx, old(annotatedUnions), sorted[..i]) == Pass(annotatedUnions, pyClasses, failure)
      {
        var c := sorted[i];
        ghost var prev := Pass(annotatedUnions, pyClasses, None);
        var classDef, raised := AnnotateSlots(ClassHeader(nm, c), c.slots);
        ClassesPassStep(ctx, old(annotatedUnions), sorted, i, prev, ClassPass(annotatedUnions, classDef, raised));
        // the class is entered whether or not one of its slots raises; on a raise the classes are discarded
        pyClasses := Put(pyClasses, classDef.name, classDef);
        failure := raised;
        i := i + 1;
      }
      if failure.Some? {
        ClassesPassSticky(ctx, old(annotatedUnions), sorted, i);
        r := Failure(failure.value);
      } else {
        assert sorted[..i] == sorted;
        r := Success(pyClasses);
      }
    }
  }
}

=== FILE: pydantic_range_properties.dfy ===
/** What the per-slot resolution of the Pydantic generator promises. */
module PydanticRangeProperties {
  import opened Wrappers
  import opened Strings
  import opened PydanticRanges

  /**
   * A slot whose type expression is its bare range type: required,
   * single-valued, not a reference slot and not `schema_type`.
   */
  predicate Plain(references: set<string>, s: Slot) {
    s.required && !s.multivalued && s.name !in references && s.name != SchemaTypeSlot
  }

  // ---- the schema_type slot ----

  /** `schema_type` is the literal name of the owning class, whatever its range. */
  lemma SchemaTypeIsLiteral(sv: SchemaView, nm: Naming, references: set<string>, className: string, s: Slot)
    requires s.name == SchemaTypeSlot && !s.multivalued && SchemaTypeSlot !in references
    ensures SlotType(sv, nm, references, className, s) == Success(Resolved("Literal[\"" + className + "\"]", None))
  {
  }

  /** Neither the range nor the required flag of `schema_type` changes its type: it is never Optional. */
  lemma SchemaTypeIgnoresRangeAndRequired(sv: SchemaView, nm: Naming, references: set<string>, className: string,
                                          s: Slot, range: Option<string>, required: bool)
    requires s.name == SchemaTypeSlot
    ensures SlotType(sv, nm, references, className, s)
         == SlotType(sv, nm, references, className, s.(range := range, required := required))
  {
  }

  // ---- classification order ----

  /** Resolution fails exactly for a present range that is no class, enum or type, and names that range. */
  lemma UnresolvableRange(sv: SchemaView, nm: Naming, references: set<string>, className: string, s: Slot)
    ensures SlotType(sv, nm, references, className, s).Failure? <==>
      s.name != SchemaTypeSlot && s.range.Some? &&
      s.range.value !in sv.classes && s.range.value !in sv.enums && s.range.value !in sv.types
    ensures SlotType(sv, nm, references, className, s).Failure? ==>
      SlotType(sv, nm, references, className, s).error == "range: " + s.range.value
  {
  }

  /** A class range wins over an enum or a type of the same name. */
  lemma ClassBeforeEnumAndType(sv: SchemaView, nm: Naming, references: set<string>, className: string, s: Slot)
    requires s.range.Some? && s.range.value in sv.classes
    ensures SlotType(sv, nm, references, className, s)
         == SlotType(sv.(enums := sv.enums - {s.range.value}, types := sv.types - {s.range.value}),
                     nm, references, className, s)
  {
  }

  /** An enum range wins over a type of the same name. */
  lemma EnumBeforeType(sv: SchemaView, nm: Naming, references: set<string>, className: string, s: Slot)
    requires s.range.Some? && s.range.value in sv.enums
    ensures SlotType(sv, nm, references, className, s)
         == SlotType(sv.(types := sv.types - {s.range.value}), nm, references, className, s)
  {
  }

  lemma EnumRange(sv: SchemaView, nm: Naming, references: set<string>, className: string, s: Slot)
    requires Plain(references, s) && s.range.Some?
    requires s.range.value !in sv.classes && s.range.value in sv.enums
    ensures SlotType(sv, nm, references, className, s) == Success(Resolved(nm.camel(s.range.value), None))
  {
  }

  lemma TypeRange(sv: SchemaView, nm: Naming, references: set<string>, className: string, s: Slot)
    requires Plain(references, s) && s.range.Some?
    requires s.range.value !in sv.classes && s.range.value !in sv.enums && s.range.value in sv.types
    ensures SlotType(sv, nm, references, className, s) == Success(Resolved(sv.types[s.range.value], None))
  {
  }

  lemma AbsentRange(sv: SchemaView, nm: Naming, references: set<string>, className: string, s: Slot)
    requires Plain(references, s) && s.range.None?
    ensures SlotType(sv, nm, references, className, s) == Success(Resolved("str", None))
  {
  }

  // ---- class ranges ----

  lemma AnyClassRange(sv: SchemaView, nm: Naming, references: set<string>, className: string, s: Slot)
    requires Plain(references, s) && s.range.Some? && s.range.value in sv.classes
    requires sv.classes[s.range.value].classUri == AnyClassUri
    ensures SlotType(sv, nm, references, className, s) == Success(Resolved("Any", None))
  {
  }

  /** A class with an identifier, on a slot that is not inlined, is referenced by its identifier. */
  lemma IdentifiedClassByReference(sv: SchemaView, nm: Naming, references: set<string>, className: string, s: Slot)
    requires Plain(references, s) && s.range.Some? && s.range.value in sv.classes
    requires sv.classes[s.range.value].classUri != AnyClassUri
    requires sv.classes[s.range.value].hasIdentifier && !s.inlined
    ensures SlotType(sv, nm, references, className, s) == Success(Resolved("str", None))
  {
  }

  /** An embedded class with one descendant is named directly and asks for no union. */
  lemma SingleDescendant(sv: SchemaView, nm: Naming, references: set<string>, className: string, s: Slot)
    requires Plain(references, s) && s.range.Some? && s.range.value in sv.classes
    requires sv.classes[s.range.value].classUri != AnyClassUri
    requires s.inlined || !sv.classes[s.range.value].hasIdentifier
    requires |sv.classes[s.range.value].descendants| == 1
    ensures SlotType(sv, nm, references, className, s)
         == Success(Resolved(nm.camel(sv.classes[s.range.value].descendants[0]), None))
  {
  }

  /**
   * An embedded class with several descendants is typed by the union named
   * after the first descendant, discriminated on `schema_type`, whose members
   * are the descendants in reverse order (camel-cased twice).
   */
  lemma DescendantUnion(sv: SchemaView, nm: Naming, references: set<string>, className: string, s: Slot)
    requires s.name != SchemaTypeSlot && s.range.Some? && s.range.value in sv.classes
    requires sv.classes[s.range.value].classUri != AnyClassUri
    requires s.inlined || !sv.classes[s.range.value].hasIdentifier
    requires |sv.classes[s.range.value].descendants| >= 2
    ensures var ds := sv.classes[s.range.value].descendants;
            var r := SlotType(sv, nm, references, className, s);
            var name := nm.camel("annotated " + ds[0]);
            r.Success? && r.value.union.Some? &&
            r.value.union.value.name == name &&
            r.value.union.value.discriminatorField == SchemaTypeSlot &&
            |r.value.union.value.members| == |ds| &&
            (forall i :: 0 <= i < |ds| ==> r.value.union.value.members[i] == nm.camel(nm.camel(ds[|ds| - 1 - i]))) &&
            (Plain(references, s) ==> r.value.pyrange == name)
  {
  }

  /** Only an embedded class range with at least two descendants asks for a union. */
  lemma UnionOnlyForSeveralDescendants(sv: SchemaView, nm: Naming, references: set<string>, className: string, s: Slot)
    requires SlotType(sv, nm, references, className, s).Success?
    requires SlotType(sv, nm, references, className, s).value.union.Some?
    ensures s.name != SchemaTypeSlot && s.range.Some? && s.range.value in sv.classes
    ensures sv.classes[s.range.value].classUri != AnyClassUri
    ensures s.inlined || !sv.classes[s.range.value].hasIdentifier
    ensures |sv.classes[s.range.value].descendants| >= 2
  {
  }

  // ---- wrapping ----

  /** `inlined_as_list` never affects the type: the collection key it would select is never set. */
  lemma InlinedAsListIrrelevant(sv: SchemaView, nm: Naming, references: set<string>, className: string, s: Slot, b: bool)
    ensures SlotType(sv, nm, references, className, s)
         == SlotType(sv, nm, references, className, s.(inlinedAsList := b))
  {
    var s' := s.(inlinedAsList := b);
    if s.range.Some? && s.range.value in sv.classes {
      assert ClassRange(nm, s, sv.classes[s.range.value]) == ClassRange(nm, s', sv.classes[s.range.value]);
    }
    assert BaseRange(sv, nm, className, s) == BaseRange(sv, nm, className, s');
  }

  /** A multivalued slot that is not a reference slot is always a `List`, never a `Dict`. */
  lemma MultivaluedIsList(sv: SchemaView, nm: Naming, references: set<string>, className: string, s: Slot)
    requires Plain(references, s)
    ensures var one := SlotType(sv, nm, references, className, s);
            var many := SlotType(sv, nm, references, className, s.(multivalued := true));
            one.Success? == many.Success? &&
            (one.Success? ==> many.value == one.value.(pyrange := "List[" + one.value.pyrange + "]"))
  {
  }

  /** An optional slot is the required one wrapped in `Optional`; nothing else changes. */
  lemma OptionalWrapsRequired(sv: SchemaView, nm: Naming, references: set<string>, className: string, s: Slot)
    requires s.name != SchemaTypeSlot
    ensures var req := SlotType(sv, nm, references, className, s.(required := true));
            var opt := SlotType(sv, nm, references, className, s.(required := false));
            req.Success? == opt.Success? &&
            (req.Success? ==> opt.value == req.value.(pyrange := "Optional[" + req.value.pyrange + "]"))
  {
    var req := s.(required := true);
    var opt := s.(required := false);
    if s.range.Some? && s.range.value in sv.classes {
      assert ClassRange(nm, req, sv.classes[s.range.value]) == ClassRange(nm, opt, sv.classes[s.range.value]);
    }
    assert BaseRange(sv, nm, className, req) == BaseRange(sv, nm, className, opt);
  }

  /**
   * Making a required slot a reference slot widens its type with a string
   * alternative (a list of strings when multivalued), unless the type is
   * already `str` or mentions `[str]`.
   */
  lemma ReferenceRelaxation(sv: SchemaView, nm: Naming, references: set<string>, className: string, s: Slot)
    requires s.required
    ensures var plain := SlotType(sv, nm, references - {s.name}, className, s);
            var ref := SlotType(sv, nm, references + {s.name}, className, s);
            plain.Success? == ref.Success? &&
            (plain.Success? ==>
              var t := plain.value.pyrange;
              ref.value.union == plain.value.union &&
              ref.value.pyrange ==
                if t == "str" || Contains(t, "[str]") then t
                else if s.multivalued then "Union[" + t + ", List[str]]"
                else "Union[" + t + ", str]")
  {
  }
}

=== FILE: pydantic_ranges.dfy ===
/**
 * The per-slot decision of the Pydantic generator: which Python type
 * expression a slot of a class is annotated with, and which discriminated
 * union (if any) the slot asks the generator to define.
 *
 * Type expressions are strings, as in the generator: the reference-slot
 * relaxation inspects the expression with a substring test.
 */
module PydanticRanges {
  import opened Wrappers
  import opened Strings

  /**
   * The schema runtime's `camelcase` and `underscore`. Their exact behaviour
   * is not part of this model, so they are parameters.
   */
  datatype Naming = Naming(camel: string -> string, under: string -> string)

  /** What the schema view reports about a class that is some slot's range. */
  datatype RangeClass = RangeClass(
    classUri: string,
    /** `get_identifier_slot` finds a slot */
    hasIdentifier: bool,
    /** `class_descendants`: the class and its subclasses, in the view's order */
    descendants: seq<string>)

  /**
   * The schema view, reduced to what the resolution asks of it: the classes,
   * the enums, and the types together with the Python type `_get_pyrange`
   * maps each one to.
   */
  datatype SchemaView = SchemaView(
    classes: map<string, RangeClass>,
    enums: set<string>,
    types: map<string, string>)

  /** An induced slot of a class. */
  datatype Slot = Slot(
    name: string,
    range: Option<string>,
    multivalued: bool,
    required: bool,
    inlined: bool,
    inlinedAsList: bool,
    description: Option<string>)

  /** A registry entry: `Annotated[Union[members...], Field(discriminator=...)]`. */
  datatype AnnotatedUnion = AnnotatedUnion(name: string, discriminatorField: string, members: seq<string>)

  /** A slot's type expression, and the union it wants registered. */
  datatype Resolved = Resolved(pyrange: string, union: Option<AnnotatedUnion>)

  const SchemaTypeSlot := "schema_type"
  const AnyClassUri := "linkml:Any"

  function Reversed<T>(s: seq<T>): (r: seq<T>)
    ensures |r| == |s|
    ensures forall i :: 0 <= i < |s| ==> r[i] == s[|s| - 1 - i]
  {
    if s == [] then [] else Reversed(s[1..]) + [s[0]]
  }

  function CamelAll(nm: Naming, names: seq<string>): (r: seq<string>)
    ensures |r| == |names|
    ensures forall i :: 0 <= i < |names| ==> r[i] == nm.camel(names[i])
  {
    if names == [] then [] else [nm.camel(names[0])] + CamelAll(nm, names[1..])
  }

  /** The type of a slot whose range is a class (not a `linkml:Any` one). */
  function ClassRange(nm: Naming, s: Slot, c: RangeClass): (r: Resolved)
    ensures r.union.Some? ==> c.classUri != AnyClassUri && (s.inlined || !c.hasIdentifier)
    ensures r.union.Some? ==> r.pyrange == r.union.value.name && r.union.value.discriminatorField == SchemaTypeSlot
    ensures r.union.Some? <==> c.classUri != AnyClassUri && (s.inlined || !c.hasIdentifier) && |c.descendants| > 1
    ensures r.union.Some? ==> |r.union.value.members| == |c.descendants|
  {
    if c.classUri == AnyClassUri then Resolved("Any", None)
    else if s.inlined || !c.hasIdentifier then
      var members := CamelAll(nm, Reversed(c.descendants));
      if |members| > 1 then
        var unionName := nm.camel("annotated " + c.descendants[0]);
        // the registered members are camel-cased a second time
        Resolved(unionName, Some(AnnotatedUnion(unionName, SchemaTypeSlot, CamelAll(nm, members))))
      else
        // `",".join` of at most one name
        Resolved(if members == [] then "" else members[0], None)
    else Resolved("str", None)
  }

  /**
   * The range classification, in the generator's order: the `schema_type`
   * slot, a class, an enum, a type, no range; anything else raises.
   * `className` is the camel-cased name of the class that owns the slot.
   */
  function BaseRange(sv: SchemaView, nm: Naming, className: string, s: Slot): (r: Result<Resolved>)
    ensures r.Failure? <==> s.name != SchemaTypeSlot && s.range.Some? && s.range.value !in sv.classes
                            && s.range.value !in sv.enums && s.range.value !in sv.types
    ensures r.Failure? ==> r.error == "range: " + s.range.value
    ensures r.Success? && r.value.union.Some? ==> s.name != SchemaTypeSlot && s.range.Some? && s.range.value in sv.classes
  {
    if s.name == SchemaTypeSlot then Success(Resolved("Literal[\"" + className + "\"]", None))
    else if s.range.Some? && s.range.value in sv.classes then Success(ClassRange(nm, s, sv.classes[s.range.value]))
    else if s.range.Some? && s.range.value in sv.enums then Success(Resolved(nm.camel(s.range.value), None))
    else if s.range.Some? && s.range.value in sv.types then Success(Resolved(sv.types[s.range.value], None))
    else if s.range.None? then Success(Resolved("str", None))
    else Failure("range: " + s.range.value)
  }

  /**
   * The container of a multivalued slot: a mapping when a collection key is
   * known, a list otherwise.
   */
  function Container(t: string, multivalued: bool, collectionKey: Option<string>): (r: string)
    ensures !multivalued ==> r == t
    ensures multivalued ==> |r| > |t| && r[|r| - 1] == ']'
    ensures multivalued && collectionKey.None? ==> StartsWith(r, "List[") && r[5..|r| - 1] == t
  {
    if !multivalued then t
    else if collectionKey.None? then "List[" + t + "]"
    else "Dict[" + collectionKey.value + ", " + t + "]"
  }

  /** A reference slot also accepts identifiers, unless its type already does. */
  function Relaxed(t: string, isReference: bool, multivalued: bool): (r: string)
    ensures !isReference || t == "str" ==> r == t
    ensures r != t ==> StartsWith(r, "Union[" + t + ", ")
  {
    if isReference && !Contains(t, "[str]") && t != "str" then
      if multivalued then "Union[" + t + ", List[str]]" else "Union[" + t + ", str]"
    else t
  }

  /** A slot that is not required may also be `None`; the `schema_type` slot never is. */
  function Optionalized(t: string, s: Slot): (r: string)
    ensures s.required || s.name == SchemaTypeSlot ==> r == t
    ensures !s.required && s.name != SchemaTypeSlot ==> r != t
    ensures r != t ==> StartsWith(r, "Optional[" + t) && r[|r| - 1] == ']'
  {
    if !s.required && s.name != SchemaTypeSlot then "Optional[" + t + "]" else t
  }

  /**
   * The annotation of slot `s` (already renamed with `underscore`) of the
   * class named `className`, given the set of reference slot names.
   * The collection key is never set: the branch that finds one assigns a
   * different variable, so the container is always a list.
   */
  function SlotType(sv: SchemaView, nm: Naming, references: set<string>, className: string, s: Slot): (r: Result<Resolved>)
    ensures r.Failure? <==> BaseRange(sv, nm, className, s).Failure?
    ensures r.Failure? ==> r.error == BaseRange(sv, nm, className, s).error
    ensures r.Success? ==> r.value.union == BaseRange(sv, nm, className, s).value.union
    ensures r.Success? && !s.multivalued && s.name !in references && (s.required || s.name == SchemaTypeSlot) ==>
      r.value.pyrange == BaseRange(sv, nm, className, s).value.pyrange
  {
    match BaseRange(sv, nm, className, s)
    case Failure(e) => Failure(e)
    case Success(b) =>
      var collectionKey: Option<string> := None;
      var t := Relaxed(Container(b.pyrange, s.multivalued, collectionKey), s.name in references, s.multivalued);
      Success(Resolved(Optionalized(t, s), b.union))
  }
}

=== FILE: reference_slots.dfy ===
/**
 * Which slots count as reference slots. Both generators apply the same test
 * to a slot's alias: it starts with "has " or is "main contact", and it is
 * not one of three excluded names.
 */
module ReferenceSlots {
  import opened Strings

  /** Slots named like references that are nevertheless always inlined. */
  const NonReferenceSlots: set<string> := {"has attribute", "has parameter", "has data use condition"}

  /** Whether a slot alias names a reference (kept by identifier rather than nested). */
  predicate IsReferenceAlias(alias: string): (r: bool)
    ensures r ==> alias !in NonReferenceSlots
    ensures alias == "main contact" ==> r
  {
    (StartsWith(alias, "has ") || alias == "main contact") && alias !in NonReferenceSlots
  }

  /** None of the excluded names qualifies, although each starts with "has ". */
  lemma ExcludedNamesDoNotQualify(alias: string)
    requires alias in NonReferenceSlots
    ensures StartsWith(alias, "has ") && !IsReferenceAlias(alias)
  {
  }

  /** Every other alias of the form "has <x>" qualifies. */
  lemma HasAliasQualifies(x: string)
    requires "has " + x !in NonReferenceSlots
    ensures IsReferenceAlias("has " + x)
  {
    assert ("has " + x)[..4] == "has ";
  }

  /** The aliases, among those of a schema, that name references. */
  function RawReferenceSlots(aliases: seq<string>): (r: set<string>)
    ensures forall a :: a in r ==> a in aliases
    ensures "main contact" in aliases <==> "main contact" in r
    ensures forall a :: a in NonReferenceSlots ==> a !in r
  {
    set a | a in aliases && IsReferenceAlias(a)
  }
}

=== FILE: strings.dfy ===
/** The two string tests the generators perform: Python's `str.startswith` and `in` on strings. */
module Strings {

  /** `s.startswith(prefix)` */
  predicate StartsWith(s: string, prefix: string) {
    |prefix| <= |s| && s[..|prefix|] == prefix
  }

  /** `sub in s`: `sub` occurs somewhere in `s` */
  predicate Contains(s: string, sub: string)
    decreases |s|
  {
    StartsWith(s, sub) || (|s| > 0 && Contains(s[1..], sub))
  }

  /** `sub` occurs in `s` starting at position `i`. */
  predicate OccursAt(s: string, sub: string, i: int) {
    0 <= i <= |s| - |sub| && s[i..i + |sub|] == sub
  }

  /** `Contains` agrees with the positional reading of Python's substring test. */
  lemma {:induction false} ContainsAt(s: string, sub: string)
    ensures Contains(s, sub) <==> exists i :: OccursAt(s, sub, i)
    decreases |s|
  {
    if StartsWith(s, sub) {
      assert OccursAt(s, sub, 0);
    } else if |s| > 0 {
      ContainsAt(s[1..], sub);
      if Contains(s[1..], sub) {
        var i :| OccursAt(s[1..], sub, i);
        assert s[1..][i..i + |sub|] == s[i + 1..i + 1 + |sub|];
        assert OccursAt(s, sub, i + 1);
      }
      if exists i :: OccursAt(s, sub, i) {
        var i :| OccursAt(s, sub, i);
        assert i != 0;
        assert s[1..][i - 1..i - 1 + |sub|] == s[i..i + |sub|];
        assert OccursAt(s[1..], sub, i - 1);
      }
    }
  }
}

=== FILE: wrappers.dfy ===
/** Optional values and the outcome of an operation that may raise. */
module Wrappers {

  datatype Option<+T> = None | Some(value: T)

  /** `Failure` carries a message naming the exception the generator raises. */
  datatype Result<+R> = Success(value: R) | Failure(error: string)
}
